=== FILE: README.md ===
# Mention (React Native client): hashtag rendering, likes, search filter, trends

This project models in Dafny the logic behind three screens of the Mention client. Each piece is a pure function over immutable data, and lemmas prove what the code promises.

- **Post body and like button** (`components/Post.tsx`):
  - `detectHashtags` splits the post text with `text.split(/(#[a-zA-Z0-9_]+)/g)`. It renders every part that starts with `#` as a link to `/hashtag/<rest>`.
  - `handleLike` flips `isLiked` and moves `likesCount` one step in the same direction.
  - Module `Hashtags` covers the split. `Split` is a reference definition of JavaScript's split with a capturing global pattern. `SplitScan` is the scanning loop of the ECMAScript split algorithm, proved to compute the same list.
  - Module `Post` covers the props defaults and the like toggle.
- **Search screen** (`app/search.tsx`), module `Search`:
  - the basic facets (`showImages`, `showVideos`, `showText`) and the advanced facets (`sortByDate`, `sortByRelevance`), each a map from key to flag;
  - their two update handlers and the hashtag press;
  - the `filteredResults` filter;
  - the mapping of a search result to the props of a `Post`.
- **Trends hook** (`hooks/useFetchTrends.ts`), module `Trends`: one `fetchTrends` run is a transition of the hook state (trend list plus key-value cache). The run's outcomes are parameters: what the fetch returned (or that it threw) and whether the store succeeded. The run also produces the trace of its effects (fetch, store, logged error). Module `Decimal` models `score.toString()` for non-negative integers up to 2^53, where JavaScript numbers print their exact decimal digits.

Two behaviours of the code a reader may not expect:
- Empty post text splits to `[""]`, one empty text part, not to an empty list.
- A raw trend without a `score` makes `score.toString()` throw. That aborts the whole refresh, so nothing is stored and the list is not replaced. No per-record default is applied.

## Model

| member | source | states |
|---|---|---|
| Hashtags.WordRun | components/Post.tsx:13 | the greedy `[a-zA-Z0-9_]+`: the run stays in bounds, is all word characters and cannot be extended |
| Hashtags.TagEnd | components/Post.tsx:13 | a match starting at q ends after at least one word character, the slice is a hashtag, and the next character is not a word character |
| Hashtags.FindTag | components/Post.tsx:13 | finds the leftmost position from i where `#` followed by a word character begins, and reports none only when no such position exists |
| Hashtags.SplitFrom | components/Post.tsx:13 | the split of a suffix has odd length and every odd-indexed part is a hashtag |
| Hashtags.Split | components/Post.tsx:13 | `text.split(/(#[a-zA-Z0-9_]+)/g)` has odd length and the captured matches sit at the odd indices |
| Hashtags.SplitFromCovers | components/Post.tsx:13 | joining the parts of a suffix's split gives back that suffix |
| Hashtags.SplitCovers | components/Post.tsx:13 | joining the parts gives back the text exactly: split loses and adds nothing |
| Hashtags.SplitFromWellSegmented | components/Post.tsx:13 | the split meets every segmentation condition: matches at odd indices, no match begins in the text between matches, every match maximal |
| Hashtags.WellSegmentedIsSplitFrom | components/Post.tsx:13 | any segmentation meeting those conditions is the split: leftmost, greedy matching leaves no choice |
| Hashtags.SplitCharacterised | components/Post.tsx:13 | a part list is the split of the text iff it is a well-formed segmentation of it (both directions) |
| Hashtags.SinglePartIffNoMatch | components/Post.tsx:13 | the split has one part iff no match begins in the text, and that part is then the whole text |
| Hashtags.NoHashSinglePart | components/Post.tsx:13 | text without `#` splits to itself alone |
| Hashtags.EmptyTextSplit | components/Post.tsx:13 | the empty text splits to `[""]`, one empty part |
| Hashtags.SplitCons | components/Post.tsx:13 | match-free text, then a match not continued by what follows, split as those two parts plus the split of the rest |
| Hashtags.SplitExample | components/Post.tsx:13 | "hello #world and #foo_2 bar" splits to ["hello ", "#world", " and ", "#foo_2", " bar"] |
| Hashtags.SplitExampleTail | components/Post.tsx:13 | " and #foo_2 bar" splits to [" and ", "#foo_2", " bar"] |
| Hashtags.MatchEndScan | components/Post.tsx:13 | the scanning loop that extends a match over word characters stops exactly where the greedy match ends |
| Hashtags.SplitScan | components/Post.tsx:13 | the scanning split loop, which emits the text before each match and the match and resumes after it, returns exactly `Split(text)` |
| Hashtags.ScanAt | components/Post.tsx:13 | one scan step keeps "emitted parts followed by the split of the rest is the split of the text" and makes progress |
| Hashtags.RenderPart | components/Post.tsx:15-21 | a part becomes a link iff it starts with `#`, the link targets `/hashtag/` plus the part without its first character, and the node shows the part unchanged |
| Hashtags.DetectHashtags | components/Post.tsx:14-22 | detectHashtags as written: one rendered node per split part |
| Hashtags.RenderedTextCovers | components/Post.tsx:14-22 | the rendered nodes show exactly the parts, in order, and together they display the whole post text |
| Hashtags.LinkIffStartsWithHash | components/Post.tsx:15-16 | a node is a link iff its part starts with `#`; a link targets `/hashtag/` plus the part without its first character; every match becomes a link to its own name |
| Hashtags.StrayHashIsLinked | components/Post.tsx:15 | "#!" is one text part yet renders as a link to "/hashtag/!"; in "#a# b" the text part "# b" renders as a link to "/hashtag/ b" |
| Hashtags.DetectHashtagsByMatch | components/Post.tsx:14-22 | the corrected rendering: one node per split part, a link only for the captured matches |
| Hashtags.ByMatchLinksOnlyHashtags | components/Post.tsx:14-22 | with the correction, a node is a link iff it shows a hashtag; its target is `/hashtag/` plus the tag name; the nodes still show every part |
| Post.ResolveProps | components/Post.tsx:32-34 | absent `likes`, `reposts`, `replies` default to 0; present values and the other props pass through |
| Post.Mount | components/Post.tsx:36-37 | a freshly rendered card is not liked and shows the `likes` prop (0 if absent), consistent with the like invariant |
| Post.HandleLike | components/Post.tsx:39-43 | pressing the heart flips `isLiked`, adds one when it becomes liked and subtracts one when it becomes unliked, leaves the props alone and preserves "count = likes + (liked ? 1 : 0)" |
| Post.TogglesKeepInvariant | components/Post.tsx:36-43 | after n presses the invariant still holds, the liked flag equals the starting flag flipped n times (flipped iff n is odd), the count never drops below `likes`, and the props are unchanged |
| Post.DoubleToggleRestores | components/Post.tsx:39-43 | two presses restore the card exactly |
| Post.TogglesFromMount | components/Post.tsx:32-43 | from mounting, an even number of presses gives back the mounted card and an odd number gives liked with `likes + 1`; with `likes >= 0` the count is never negative |
| Post.LikeExample | components/Post.tsx:36-43 | a post with 5 likes goes to liked with 6, then back to not liked with 5 |
| Search.Flag | app/search.tsx:126-128 | reading `filters.<key>`: true only when the key is present and set to true; a missing key reads as `undefined`, which is falsy |
| Search.Includes | app/search.tsx:126-128 | `content.includes(marker)`: the empty string is always included, a marker never fits in shorter content, and a prefix of the content is included |
| Search.Kept | app/search.tsx:125-130 | the callback's three early returns: a result is kept iff no facet that is off has its marker in the content |
| Search.InitialState | app/search.tsx:101-111 | the screen starts with no hashtag selected, not premium, the three basic facets on and exactly those keys, and the two advanced facets off and exactly those keys |
| Search.FilterResults | app/search.tsx:125-130 | the filtered list is never longer than the results |
| Search.KeptPositionsEmbed | app/search.tsx:125-130 | the positions of kept results embed the filtered list in the results, in increasing order |
| Search.FilterIsSubsequence | app/search.tsx:125-130 | `Array.filter` keeps an order-preserving subsequence of the results |
| Search.FilterMembership | app/search.tsx:125-130 | a result is listed iff it is among the results and no facet that is off has its marker ("image", "video", "text") in the content (both directions) |
| Search.MarkerFreeAlwaysKept | app/search.tsx:126-129 | content without any of the three markers is never hidden |
| Search.AllFacetsOnKeepsAll | app/search.tsx:125-130 | with all three basic facets on, the filter returns the results unchanged |
| Search.InitialScreenListsAll | app/search.tsx:103-107 | the screen as first shown lists every result, since the basic facets start on |
| Search.FilterAbsorbs | app/search.tsx:125-130 | filtering with stricter facets after looser ones equals filtering with the stricter ones alone |
| Search.FilterAppend | app/search.tsx:125-130 | the filter of a concatenation is the concatenation of the filters |
| Search.FilterIdempotent | app/search.tsx:125-130 | filtering twice with the same facets equals filtering once |
| Search.FilterMonotone | app/search.tsx:125-130 | turning facets off only removes results: the stricter list is a subsequence of the looser one |
| Search.FilterExample | app/search.tsx:126 | with images hidden, "an image here" is dropped and "plain text" is kept |
| Search.HandleFilterChange | app/search.tsx:117-119 | `{...prev, [filter]: value}` on the basic facets: the key reads `value`, no key is lost, every other key is kept, and the rest of the screen state is unchanged |
| Search.HandleAdvancedFilterChange | app/search.tsx:121-123 | the same update on the advanced facets, leaving the basic facets and the rest of the screen state unchanged |
| Search.HandleHashtagPress | app/search.tsx:113-115 | pressing a trend selects its hashtag and leaves the facets and the premium flag unchanged |
| Search.ListingIgnoresOtherKeys | app/search.tsx:117-130 | an advanced-facet change never changes the listed results, nor does a basic-facet change under a key the filter does not read |
| Search.FilterSameFlags | app/search.tsx:126-128 | facets that read the same on the three keys the filter tests filter the same |
| Search.ResultAsPost | app/search.tsx:209-219 | a listed result becomes a Post with its id, avatar, content and timestamp, its user name as both name and username, and zero likes, reposts and replies |
| Search.ResultPostStartsAtZero | app/search.tsx:216-218 | such a Post mounts unliked showing 0 likes, with zero reposts and replies, and one press shows 1 |
| Decimal.NatToString | hooks/useFetchTrends.ts:15 | `score.toString()` for a non-negative integer score (exact up to 2^53) is a canonical decimal numeral |
| Decimal.ParseNatToString | hooks/useFetchTrends.ts:15 | reading the numeral back gives the score |
| Decimal.NatToStringParse | hooks/useFetchTrends.ts:15 | every canonical numeral is the string of its value, so the two are inverse |
| Decimal.NatToStringInjective | hooks/useFetchTrends.ts:15 | different scores give different strings |
| Decimal.NatToStringExample | hooks/useFetchTrends.ts:15 | 42 becomes "42" |
| Trends.Initial | hooks/useFetchTrends.ts:7 | the hook starts with an empty trend list |
| Trends.Normalize | hooks/useFetchTrends.ts:12-16 | the map succeeds iff every record has a score; the result has the same length and order, and each entry has the record's id, its hashtag as topic and its score's string as countTotal |
| Trends.Refresh | hooks/useFetchTrends.ts:9-22 | every run first fetches "hashtags"; any store writes the new list under "trends"; the cache afterwards is either unchanged or the old cache with "trends" set to the new list, so no other key is added, removed or changed |
| Trends.RefreshFetchFailure | hooks/useFetchTrends.ts:11-21 | a failed fetch changes nothing, stores nothing and ends with a logged error |
| Trends.RefreshMissingScore | hooks/useFetchTrends.ts:12-21 | one record without a score aborts the run: no partial list and no cache write |
| Trends.RefreshSuccess | hooks/useFetchTrends.ts:12-18 | with every score present, the list becomes the normalised records in order: ids and topics copied, countTotal a canonical numeral that reads back as the score. That list is what gets stored, and the cache holds it when the store succeeds, with no error logged; on failure the cache keeps its old value (RefreshStoreFailure) |
| Trends.RefreshStoreFailure | hooks/useFetchTrends.ts:17-21 | a failed store comes after `setTrends`: the list is already replaced, the cache keeps its old value, and the error is logged |
| Trends.RefreshCompleteOrNoop | hooks/useFetchTrends.ts:9-22 | a run either leaves the state as it was or sets the list to the normalised fetch, nothing in between |
| Trends.RefreshPreservesWellFormed | hooks/useFetchTrends.ts:15-18 | every shown and cached countTotal stays a canonical numeral, whatever the outcomes |
| Trends.RefreshIdempotent | hooks/useFetchTrends.ts:9-22 | repeating a run with the same outcomes reaches the same state |
| Trends.NormalizeExample | hooks/useFetchTrends.ts:12-16 | `{id: "1", hashtag: "#Go", score: 42}` becomes `{id: "1", topic: "#Go", countTotal: "42"}` |

## Left out

- The regular-expression engine: the one pattern `#[a-zA-Z0-9_]+` is modelled directly by the greedy scanner (`WordRun`, `TagEnd`, `FindTag`).
- React rendering, styles, `key` props, images, `expo-router` navigation and `event.stopPropagation()`: a rendered node is modelled as plain text or as (link target, shown text).
- handleShare in components/Post.tsx: it only hands `https://mention.earth/post/<id>` to the platform share sheet or shows an alert. Both are device I/O.
- Post.HandleLike: counts are unbounded integers, while JavaScript numbers are doubles. Once a count's magnitude reaches 2^53, `prev + 1` or `prev - 1` is not exact (at 2^53 itself `prev + 1` rounds back to 2^53, and at -2^54 it rounds back to -2^54). So with `likes = 2^53` a like shows 2^53 and the unlike shows 2^53 - 1, and `DoubleToggleRestores` does not hold there. The model agrees with the program for counts strictly between -2^53 and 2^53. It also assumes each press sees the state left by the previous one. React could batch two presses within one render so both read the same stale `isLiked`; that interleaving is not modelled.
- Trends.Refresh: runs are sequential. Overlapping async runs, and the mount-time `useEffect` that triggers the first one, are not modelled. `fetchData` and `storeData` are collaborators whose outcomes are parameters.
- Decimal.NatToString: agrees with JavaScript's `Number.prototype.toString` only up to 2^53. Above that a score is a double, so `(2**60).toString()` is "1152921504606847000" while the model gives "1152921504606846976", and from 10^21 up JavaScript prints exponent form ("1e+21").
- Trends.RawTrend: a score is a non-negative integer or absent. Negative, fractional and non-numeric scores (`toString` gives "-5", "1.5", …) are not modelled. A missing `id` or `hashtag` would be copied as `undefined`; here both are strings.
- `console.error`: only its occurrence (`LogError`) is modelled, not the message.
- Search premium gating and the list of trends on the search screen: `isPremium` is state with no handler that changes it. The premium-only advanced-facet UI is layout only.
- The advanced facets `sortByDate` and `sortByRelevance`: their state updates are modelled, but the code never sorts by them, so they have no effect on the listing (`ListingIgnoresOtherKeys`).
- The mock search results and trends data: the lemmas quantify over every list.
- `app/_layout.tsx`: the start-up sequence. It keeps the splash screen up and initialises i18n, logging a failure with `console.error`. Once fonts have loaded it sets up notifications and asks for permission. If permission is granted it schedules the demo notification. It then hides the splash screen, and any failure is reported with `console.warn`. It also picks a layout from window-width breakpoints. All of this is device I/O, platform services or presentation, so none of it is modelled.
- `app/(tabs)/index.tsx`: the pull-to-refresh spinner, which is shown and then cleared by a 2000 ms `setTimeout`. That is a timer driving presentation, with no data it computes.
- `features/sidebar/components/MenuItem.tsx`: presentation only.
- Search.FilterResults: its ensures states only the length bound. Membership and order are stated by `FilterMembership` and `FilterIsSubsequence`.

## Findings

| source | as written | input that shows it | evidently intended | confidence | as-written member | corrected member |
|---|---|---|---|---|---|---|
| components/Post.tsx:15 | every split part that starts with `#` is rendered as a hashtag link, including text parts that are not matches of the pattern | "#!" renders as a link to "/hashtag/!"; in "#a# b" the text "# b" renders as a link to "/hashtag/ b" | only the captured matches (odd indices) become links, so every link names a real hashtag | medium, not executed | Hashtags.StrayHashIsLinked | Hashtags.ByMatchLinksOnlyHashtags |

=== FILE: decimal.dfy ===
/** JavaScript `Number.prototype.toString()` on a non-negative integer score
    up to 2^53, where a double holds the integer exactly: its plain decimal
    digits, no sign, no leading zero, no thousands suffix. Larger doubles
    print rounded digits or exponent form, which this module does not model.
    The parser is the inverse used to state that nothing is lost. */
module Decimal {

  predicate IsDigit(c: char) {
    '0' <= c <= '9'
  }

  function DigitChar(d: nat): (c: char)
    requires d < 10
    ensures IsDigit(c)
  {
    "0123456789"[d]
  }

  function DigitValue(c: char): (d: nat)
    requires IsDigit(c)
    ensures d < 10
  {
    (c - '0') as nat
  }

  /** A canonical decimal numeral: non-empty, digits only, and no leading
      zero unless it is "0" itself. */
  predicate IsCanonical(s: string) {
    && |s| >= 1
    && (forall k :: 0 <= k < |s| ==> IsDigit(s[k]))
    && (s[0] == '0' ==> |s| == 1)
  }

  /** `n.toString()` for a non-negative integer n. */
  function NatToString(n: nat): (s: string)
    ensures IsCanonical(s)
    decreases n
  {
    if n < 10 then [DigitChar(n)] else NatToString(n / 10) + [DigitChar(n % 10)]
  }

  /** The value of a string of digits, most significant first. */
  function ParseDigits(s: string): nat
    requires forall k :: 0 <= k < |s| ==> IsDigit(s[k])
  {
    if |s| == 0 then 0 else ParseDigits(s[..|s| - 1]) * 10 + DigitValue(s[|s| - 1])
  }

  lemma DigitRoundTrip(d: nat)
    requires d < 10
    ensures DigitValue(DigitChar(d)) == d
  {
  }

  /** Reading the digits back gives the number. */
  lemma {:induction false} ParseNatToString(n: nat)
    ensures ParseDigits(NatToString(n)) == n
    decreases n
  {
    DigitRoundTrip(n % 10);
    if n >= 10 {
      ParseNatToString(n / 10);
      var s := NatToString(n);
      assert s[..|s| - 1] == NatToString(n / 10);
    }
  }

  lemma CharRoundTrip(c: char)
    requires IsDigit(c)
    ensures DigitChar(DigitValue(c)) == c
  {
  }

  /** A digit string with a non-zero first digit has a positive value. */
  lemma {:induction false} LeadingDigitPositive(s: string)
    requires |s| >= 1 && (forall k :: 0 <= k < |s| ==> IsDigit(s[k])) && s[0] != '0'
    ensures ParseDigits(s) >= 1
  {
    if |s| > 1 {
      LeadingDigitPositive(s[..|s| - 1]);
    }
  }

  /** Every canonical numeral is the string of its value: together with
      ParseNatToString, NatToString is a bijection onto canonical numerals. */
  lemma {:induction false} NatToStringParse(s: string)
    requires IsCanonical(s)
    ensures NatToString(ParseDigits(s)) == s
  {
    CharRoundTrip(s[|s| - 1]);
    if |s| > 1 {
      var p := s[..|s| - 1];
      NatToStringParse(p);
      LeadingDigitPositive(p);
      var n := ParseDigits(s);
      assert n / 10 == ParseDigits(p) && n % 10 == DigitValue(s[|s| - 1]);
      assert s == p + [s[|s| - 1]];
    }
  }

  /** Different numbers have different strings. */
  lemma NatToStringInjective(m: nat, n: nat)
    requires NatToString(m) == NatToString(n)
    ensures m == n
  {
    ParseNatToString(m);
    ParseNatToString(n);
  }

  /** The string of 42 is "42". */
  lemma NatToStringExample()
    ensures NatToString(42) == "42"
  {
    assert NatToString(4) == "4";
  }
}

=== FILE: hashtags.dfy ===
/** Post text segmentation: `text.split(/(#[a-zA-Z0-9_]+)/g)` followed by
    rendering every part that starts with `#` as a link to `/hashtag/<rest>`
    (components/Post.tsx, detectHashtags).

    The split is JavaScript's String.prototype.split with a capturing global
    regular expression: the result alternates between the (possibly empty)
    text between matches, at even indices, and the matches themselves, at odd
    indices, so it always has odd length. `SplitFrom` is the reference
    definition; `SplitScan` is the scanning loop of the ECMAScript split
    algorithm, proved to compute the same list. */
module Hashtags {
  import opened Wrappers

  /** The character class `[a-zA-Z0-9_]`. */
  predicate IsWordChar(c: char) {
    ('a' <= c <= 'z') || ('A' <= c <= 'Z') || ('0' <= c <= '9') || c == '_'
  }

  /** A match of `#[a-zA-Z0-9_]+` can begin at index i of s. */
  predicate TagStartsAt(s: string, i: int) {
    0 <= i && i + 1 < |s| && s[i] == '#' && IsWordChar(s[i + 1])
  }

  /** p is one complete match: `#` followed by one or more word characters. */
  predicate IsHashtag(p: string) {
    |p| >= 2 && p[0] == '#' && forall k :: 1 <= k < |p| ==> IsWordChar(p[k])
  }

  /** Some match of the pattern begins inside p. */
  ghost predicate HasTagStart(p: string) {
    exists i :: TagStartsAt(p, i)
  }

  /** Length of the longest run of word characters starting at index i: the
      greedy `+` of the pattern. */
  function WordRun(s: string, i: nat): (n: nat)
    requires i <= |s|
    ensures i + n <= |s|
    ensures forall k :: i <= k < i + n ==> IsWordChar(s[k])
    ensures i + n == |s| || !IsWordChar(s[i + n])
    decreases |s| - i
  {
    if i < |s| && IsWordChar(s[i]) then 1 + WordRun(s, i + 1) else 0
  }

  /** A run that is all word characters and cannot be extended is the greedy run. */
  lemma WordRunExact(s: string, i: nat, n: nat)
    requires i + n <= |s|
    requires forall k :: i <= k < i + n ==> IsWordChar(s[k])
    requires i + n == |s| || !IsWordChar(s[i + n])
    ensures WordRun(s, i) == n
  {
  }

  /** End (exclusive) of the greedy match that begins at q. */
  function TagEnd(s: string, q: nat): (e: nat)
    requires TagStartsAt(s, q)
    ensures q + 2 <= e <= |s|
    ensures IsHashtag(s[q..e])
    ensures e == |s| || !IsWordChar(s[e])
  {
    var e := q + 1 + WordRun(s, q + 1);
    assert forall k :: 1 <= k < e - q ==> s[q..e][k] == s[q + k];
    e
  }

  /** The leftmost position at or after i where a match begins, if any. */
  function FindTag(s: string, i: nat): (r: Option<nat>)
    requires i <= |s|
    ensures r.Some? ==> i <= r.value < |s| && TagStartsAt(s, r.value)
    ensures forall k :: i <= k < (if r.Some? then r.value else |s|) ==> !TagStartsAt(s, k)
    decreases |s| - i
  {
    if i == |s| then None
    else if TagStartsAt(s, i) then Some(i)
    else FindTag(s, i + 1)
  }

  /** The split of the suffix s[p..]: text before the leftmost match, the
      match, then the split of what follows it. */
  function SplitFrom(s: string, p: nat): (parts: seq<string>)
    requires p <= |s|
    ensures |parts| % 2 == 1
    ensures forall i :: 0 <= i < |parts| && i % 2 == 1 ==> IsHashtag(parts[i])
    decreases |s| - p
  {
    match FindTag(s, p)
    case None => [s[p..]]
    case Some(q) =>
      var e := TagEnd(s, q);
      [s[p..q], s[q..e]] + SplitFrom(s, e)
  }

  /** `text.split(/(#[a-zA-Z0-9_]+)/g)`. */
  function Split(text: string): (parts: seq<string>)
    ensures |parts| % 2 == 1
    ensures forall i :: 0 <= i < |parts| && i % 2 == 1 ==> IsHashtag(parts[i])
  {
    SplitFrom(text, 0)
  }

  /** Joins the parts back together. */
  function Concat(parts: seq<string>): string {
    if |parts| == 0 then "" else parts[0] + Concat(parts[1..])
  }

  lemma ConcatCons2(a: string, b: string, rest: seq<string>)
    ensures Concat([a, b] + rest) == a + b + Concat(rest)
  {
    var xs := [a, b] + rest;
    assert xs[1..] == [b] + rest;
    assert ([b] + rest)[1..] == rest;
  }

  /** The conditions that pin the split down: odd length, matches at odd
      indices, no match beginning inside the text between matches, and every
      match maximal (the text that follows a match does not continue it). */
  ghost predicate WellSegmented(s: string, parts: seq<string>) {
    && |parts| % 2 == 1
    && Concat(parts) == s
    && OddPartsAreHashtags(parts)
    && EvenPartsMatchFree(parts)
    && MatchesMaximal(parts)
  }

  predicate OddPartsAreHashtags(parts: seq<string>) {
    forall i :: 0 <= i < |parts| && i % 2 == 1 ==> IsHashtag(parts[i])
  }

  ghost predicate EvenPartsMatchFree(parts: seq<string>) {
    forall i :: 0 <= i < |parts| && i % 2 == 0 ==> !HasTagStart(parts[i])
  }

  /** The text that follows a match never starts with a word character. */
  predicate MatchesMaximal(parts: seq<string>) {
    forall i :: 0 < i < |parts| && i % 2 == 0 && |parts[i]| > 0 ==> !IsWordChar(parts[i][0])
  }

  /** Prefixing a well-formed segmentation of r with match-free text p0 and
      a match t that r does not continue gives a well-formed segmentation of
      p0 + t + r. */
  lemma ConsWellSegmented(p0: string, t: string, r: string, rest: seq<string>)
    requires !HasTagStart(p0) && IsHashtag(t)
    requires |r| == 0 || !IsWordChar(r[0])
    requires WellSegmented(r, rest)
    ensures WellSegmented(p0 + t + r, [p0, t] + rest)
  {
    var parts := [p0, t] + rest;
    ConcatCons2(p0, t, rest);
    forall i | 2 <= i < |parts|
      ensures parts[i] == rest[i - 2]
    {
    }
    ConsOddEven(p0, t, rest);
    assert |rest[0]| > 0 ==> r[0] == rest[0][0] by {
      assert Concat(rest) == rest[0] + Concat(rest[1..]);
    }
    assert MatchesMaximal(parts) by {
      forall i | 0 < i < |parts| && i % 2 == 0 && |parts[i]| > 0
        ensures !IsWordChar(parts[i][0])
      {
        if i > 2 {
          assert parts[i] == rest[i - 2];
        }
      }
    }
  }

  lemma ConsOddEven(p0: string, t: string, rest: seq<string>)
    requires !HasTagStart(p0) && IsHashtag(t)
    requires OddPartsAreHashtags(rest) && EvenPartsMatchFree(rest)
    ensures OddPartsAreHashtags([p0, t] + rest) && EvenPartsMatchFree([p0, t] + rest)
  {
    var parts := [p0, t] + rest;
    forall i | 2 <= i < |parts|
      ensures parts[i] == rest[i - 2]
    {
    }
  }

  /** Cutting a suffix at two points. */
  lemma Slices3(s: string, p: nat, q: nat, e: nat)
    requires p <= q <= e <= |s|
    ensures s[p..] == s[p..q] + s[q..e] + s[e..]
  {
    assert s[p..] == s[p..q] + s[q..];
    assert s[q..] == s[q..e] + s[e..];
  }

  /** A stretch of s where no match begins has no match inside it. */
  lemma NoTagStartInSlice(s: string, p: nat, q: nat)
    requires p <= q <= |s|
    requires forall k :: p <= k < q ==> !TagStartsAt(s, k)
    ensures !HasTagStart(s[p..q])
  {
    forall i | 0 <= i < q - p
      ensures !TagStartsAt(s[p..q], i)
    {
      assert !TagStartsAt(s, p + i);
      if i + 1 < q - p {
        assert s[p..q][i] == s[p + i] && s[p..q][i + 1] == s[p + i + 1];
      }
    }
  }

  /** Joining the split of s[p..] gives back s[p..]. */
  lemma {:induction false} SplitFromCovers(s: string, p: nat)
    requires p <= |s|
    ensures Concat(SplitFrom(s, p)) == s[p..]
    decreases |s| - p
  {
    match FindTag(s, p)
    case None =>
      assert SplitFrom(s, p) == [s[p..]];
    case Some(q) =>
      var e := TagEnd(s, q);
      SplitFromCovers(s, e);
      ConcatCons2(s[p..q], s[q..e], SplitFrom(s, e));
      Slices3(s, p, q, e);
  }

  /** Concatenating all parts reproduces the text exactly. */
  lemma SplitCovers(text: string)
    ensures Concat(Split(text)) == text
  {
    SplitFromCovers(text, 0);
  }

  /** The split of s[p..] satisfies every segmentation condition. */
  lemma {:induction false} SplitFromWellSegmented(s: string, p: nat)
    requires p <= |s|
    ensures WellSegmented(s[p..], SplitFrom(s, p))
    decreases |s| - p
  {
    match FindTag(s, p)
    case None =>
      assert SplitFrom(s, p) == [s[p..]];
      NoTagStartInSlice(s, p, |s|);
      assert s[p..|s|] == s[p..];
      assert Concat([s[p..]]) == s[p..] + Concat([]);
    case Some(q) =>
      var e := TagEnd(s, q);
      SplitFromWellSegmented(s, e);
      NoTagStartInSlice(s, p, q);
      Slices3(s, p, q, e);
      ConsWellSegmented(s[p..q], s[q..e], s[e..], SplitFrom(s, e));
  }

  /** A match t found at q in s ends where the greedy scan would end it. */
  lemma MatchEnd(s: string, q: nat, t: string)
    requires q + |t| <= |s| && s[q..q + |t|] == t && IsHashtag(t)
    requires q + |t| == |s| || !IsWordChar(s[q + |t|])
    ensures TagStartsAt(s, q) && TagEnd(s, q) == q + |t|
  {
    assert s[q] == t[0] && s[q + 1] == t[1];
    forall k | q + 1 <= k < q + |t|
      ensures IsWordChar(s[k])
    {
      assert s[k] == t[k - q];
    }
    WordRunExact(s, q + 1, |t| - 1);
  }

  /** When text p0 with no match inside it is followed by a match, the
      leftmost match is the one right after p0. */
  lemma LeftmostAfter(s: string, p: nat, p0: string)
    requires p + |p0| <= |s| && s[p..p + |p0|] == p0 && !HasTagStart(p0)
    requires TagStartsAt(s, p + |p0|)
    ensures FindTag(s, p) == Some(p + |p0|)
  {
    var q := p + |p0|;
    forall k | p <= k < q
      ensures !TagStartsAt(s, k)
    {
      if k + 1 < q {
        assert !TagStartsAt(p0, k - p);
        assert p0[k - p] == s[k] && p0[k - p + 1] == s[k + 1];
      }
    }
  }

  /** A segmentation with a single part has no match anywhere. */
  lemma SingleTextPart(s: string, p: nat, parts: seq<string>)
    requires p <= |s|
    requires |parts| == 1 && Concat(parts) == s[p..] && !HasTagStart(parts[0])
    ensures parts == SplitFrom(s, p)
  {
    assert parts[1..] == [];
    assert Concat(parts) == parts[0] + Concat(parts[1..]);
    assert parts[0] + "" == parts[0];
    match FindTag(s, p)
    case None =>
    case Some(q) =>
      assert TagStartsAt(parts[0], q - p);
      assert false;
  }

  /** In a segmentation with at least one match, the first match is where
      the scan finds it and ends where the greedy scan ends it. */
  lemma FirstMatchFound(s: string, p: nat, parts: seq<string>) returns (q: nat, e: nat)
    requires p <= |s|
    requires |parts| >= 3 && WellSegmented(s[p..], parts)
    ensures FindTag(s, p) == Some(q) && TagEnd(s, q) == e
    ensures s[p..q] == parts[0] && s[q..e] == parts[1]
    ensures WellSegmented(s[e..], parts[2..])
  {
    var p0, t, rest := parts[0], parts[1], parts[2..];
    assert parts == [p0, t] + rest;
    ConcatCons2(p0, t, rest);
    q := p + |p0|;
    e := q + |t|;
    assert s[p..] == p0 + t + Concat(rest);
    assert s[p..q] == p0;
    assert s[q..e] == t;
    assert s[e..] == Concat(rest);
    WellSegmentedRest(parts);
    NextAfterMatch(parts);
    assert e == |s| || !IsWordChar(s[e]) by {
      if e < |s| {
        assert s[e] == Concat(rest)[0];
      }
    }
    MatchEnd(s, q, t);
    LeftmostAfter(s, p, p0);
  }

  /** Any segmentation that satisfies the conditions is the split. */
  lemma {:induction false} WellSegmentedIsSplitFrom(s: string, p: nat, parts: seq<string>)
    requires p <= |s|
    requires WellSegmented(s[p..], parts)
    ensures parts == SplitFrom(s, p)
    decreases |parts|
  {
    if |parts| == 1 {
      SingleTextPart(s, p, parts);
    } else {
      var q, e := FirstMatchFound(s, p, parts);
      WellSegmentedIsSplitFrom(s, e, parts[2..]);
      assert parts == [parts[0], parts[1]] + parts[2..];
    }
  }

  /** Dropping the first text part and the first match leaves a well-formed
      segmentation of the remainder. */
  lemma WellSegmentedRest(parts: seq<string>)
    requires |parts| >= 3
    requires WellSegmented(Concat(parts), parts)
    ensures WellSegmented(Concat(parts[2..]), parts[2..])
  {
    var rest := parts[2..];
    forall i | 0 <= i < |rest|
      ensures rest[i] == parts[i + 2]
    {
    }
  }

  /** The character after the first match is not a word character. */
  lemma NextAfterMatch(parts: seq<string>)
    requires |parts| >= 3
    requires WellSegmented(Concat(parts), parts)
    ensures |Concat(parts[2..])| > 0 ==> !IsWordChar(Concat(parts[2..])[0])
  {
    var rest := parts[2..];
    if |rest[0]| == 0 && |rest| > 1 {
      assert rest[1..][0] == parts[3];
      assert Concat(rest) == Concat(rest[1..]);
      assert Concat(rest[1..]) == parts[3] + Concat(rest[2..]);
      assert IsHashtag(parts[3]);
    } else if |rest[0]| == 0 {
      assert Concat(rest) == "";
    } else {
      assert parts[2] == rest[0];
    }
  }

  /** The split is the unique segmentation of the text with matches at odd
      indices, no match starting in the text between them, and every match
      maximal. */
  lemma SplitCharacterised(text: string, parts: seq<string>)
    ensures WellSegmented(text, parts) <==> parts == Split(text)
  {
    assert text[0..] == text;
    if parts == Split(text) {
      SplitFromWellSegmented(text, 0);
    }
    if WellSegmented(text, parts) {
      WellSegmentedIsSplitFrom(text, 0, parts);
    }
  }

  /** No part list of length one unless no match begins anywhere in the text,
      and then the one part is the text itself. */
  lemma SinglePartIffNoMatch(text: string)
    ensures |Split(text)| == 1 <==> !HasTagStart(text)
    ensures !HasTagStart(text) ==> Split(text) == [text]
  {
    assert text[0..] == text;
    match FindTag(text, 0)
    case None =>
    case Some(q) =>
      var e := TagEnd(text, q);
      assert Split(text) == [text[..q], text[q..e]] + SplitFrom(text, e);
  }

  /** Text containing no `#` is a single part equal to the text. */
  lemma NoHashSinglePart(text: string)
    requires forall k :: 0 <= k < |text| ==> text[k] != '#'
    ensures Split(text) == [text]
  {
    SinglePartIffNoMatch(text);
  }

  /** The empty text gives one empty part, not an empty list. */
  lemma EmptyTextSplit()
    ensures Split("") == [""]
  {
    SinglePartIffNoMatch("");
  }

  /** One match step of the scan: the split of s[p..] continues after the
      match that begins at q and ends at e. */
  lemma ScanStep(s: string, p: nat, q: nat, e: nat, acc: seq<string>)
    requires p <= q && TagStartsAt(s, q) && e == TagEnd(s, q)
    requires FindTag(s, p) == FindTag(s, q)
    requires acc + SplitFrom(s, p) == Split(s)
    ensures (acc + [s[p..q], s[q..e]]) + SplitFrom(s, e) == Split(s)
  {
    var x, rest := [s[p..q], s[q..e]], SplitFrom(s, e);
    assert SplitFrom(s, p) == x + rest;
    assert acc + (x + rest) == (acc + x) + rest;
  }

  /** The greedy `[a-zA-Z0-9_]+` of a match that begins at q: the index one
      past its last word character. */
  method MatchEndScan(text: string, q: nat) returns (e: nat)
    requires TagStartsAt(text, q)
    ensures e == TagEnd(text, q)
  {
    e := q + 2;
    while e < |text| && IsWordChar(text[e])
      invariant q + 2 <= e <= |text|
      invariant forall k :: q + 1 <= k < e ==> IsWordChar(text[k])
    {
      e := e + 1;
    }
    WordRunExact(text, q + 1, e - q - 1);
  }

  /** No match begins at q, so the leftmost match from q is the leftmost
      match from q + 1. */
  lemma FindTagSkip(s: string, q: nat)
    requires q < |s| && !TagStartsAt(s, q)
    ensures FindTag(s, q) == FindTag(s, q + 1)
  {
  }

  /** The scanning loop of the ECMAScript split algorithm: q advances one
      position at a time until a match begins there; the text from the last
      match end p up to q and the match itself are then appended, and
      scanning resumes at the match end. */
  method SplitScan(text: string) returns (parts: seq<string>)
    ensures parts == Split(text)
  {
    parts := [];
    var p, q := 0, 0;
    while q < |text|
      invariant 0 <= p <= q <= |text|
      invariant FindTag(text, p) == FindTag(text, q)
      invariant parts + SplitFrom(text, p) == Split(text)
    {
      parts, p, q := ScanAt(text, parts, p, q);
    }
    ScanEnd(text, p, parts);
    parts := parts + [text[p..]];
  }

  /** One iteration of the scan at position q: on a match, emit the text
      since p and the match and resume after it; otherwise move on. */
  method ScanAt(text: string, parts: seq<string>, p: nat, q: nat)
    returns (parts': seq<string>, p': nat, q': nat)
    requires p <= q < |text|
    requires FindTag(text, p) == FindTag(text, q)
    requires parts + SplitFrom(text, p) == Split(text)
    ensures p' <= q' <= |text| && q < q'
    ensures FindTag(text, p') == FindTag(text, q')
    ensures parts' + SplitFrom(text, p') == Split(text)
  {
    if TagStartsAt(text, q) {
      var e := MatchEndScan(text, q);
      ScanStep(text, p, q, e, parts);
      parts', p', q' := parts + [text[p..q], text[q..e]], e, e;
    } else {
      FindTagSkip(text, q);
      parts', p', q' := parts, p, q + 1;
    }
  }

  /** With no match left after p, the split of s[p..] is s[p..] alone. */
  lemma ScanEnd(s: string, p: nat, acc: seq<string>)
    requires p <= |s| && FindTag(s, p) == FindTag(s, |s|)
    requires acc + SplitFrom(s, p) == Split(s)
    ensures acc + [s[p..]] == Split(s)
  {
    assert SplitFrom(s, p) == [s[p..]];
  }

  /** What the post body renders: plain text, or a link whose label is the
      part and whose target is the hashtag route. */
  datatype Node = Text(text: string) | Link(href: string, shown: string)

  /** The characters a rendered node displays. */
  function Label(n: Node): string {
    match n
    case Text(t) => t
    case Link(_, l) => l
  }

  /** A part is rendered as a link when it starts with `#`, whether or not it
      was a match. */
  function RenderPart(part: string): (n: Node)
    ensures n.Link? <==> |part| > 0 && part[0] == '#'
    ensures n.Link? ==> n.href == "/hashtag/" + part[1..]
    ensures Label(n) == part
  {
    if |part| > 0 && part[0] == '#' then Link("/hashtag/" + part[1..], part) else Text(part)
  }

  /** detectHashtags as written. */
  function DetectHashtags(text: string): (nodes: seq<Node>)
    ensures |nodes| == |Split(text)|
  {
    var parts := Split(text);
    seq(|parts|, i requires 0 <= i < |parts| => RenderPart(parts[i]))
  }

  function Labels(nodes: seq<Node>): seq<string>
    ensures |Labels(nodes)| == |nodes|
  {
    seq(|nodes|, i requires 0 <= i < |nodes| => Label(nodes[i]))
  }

  /** The rendered post displays exactly the text, every part once, in order. */
  lemma RenderedTextCovers(text: string)
    ensures Labels(DetectHashtags(text)) == Split(text)
    ensures Concat(Labels(DetectHashtags(text))) == text
  {
    SplitCovers(text);
  }

  /** A part becomes a link iff it starts with `#`, and the link targets
      `/hashtag/` followed by the part without its first character. Every
      match is such a part, so every match is a link to its own name. */
  lemma LinkIffStartsWithHash(text: string)
    ensures forall i :: 0 <= i < |Split(text)| ==>
      (DetectHashtags(text)[i].Link? <==> |Split(text)[i]| > 0 && Split(text)[i][0] == '#')
    ensures forall i :: 0 <= i < |Split(text)| && DetectHashtags(text)[i].Link? ==>
      DetectHashtags(text)[i].href == "/hashtag/" + Split(text)[i][1..]
    ensures forall i :: 0 <= i < |Split(text)| && i % 2 == 1 ==>
      DetectHashtags(text)[i] == Link("/hashtag/" + Split(text)[i][1..], Split(text)[i])
  {
    SplitCharacterised(text, Split(text));
  }

  /** A part that is not a match but starts with `#` is linked too: the text
      "#!" renders as a link to "/hashtag/!", and in "#a# b" the text after
      the match "#a" renders as a link to "/hashtag/ b". */
  lemma StrayHashIsLinked()
    ensures Split("#!") == ["#!"]
    ensures DetectHashtags("#!") == [Link("/hashtag/!", "#!")]
    ensures Split("#a# b") == ["", "#a", "# b"]
    ensures DetectHashtags("#a# b")[2] == Link("/hashtag/ b", "# b")
  {
    assert !IsWordChar('!') && !IsWordChar(' ') && IsWordChar('a');
    assert FindTag("#!", 2) == None;
    assert FindTag("#!", 1) == None;
    assert FindTag("#!", 0) == None;
    assert "#!"[0..] == "#!";
    assert Split("#!") == ["#!"];
    assert "#!"[1..] == "!";
    assert "/hashtag/" + "!" == "/hashtag/!";
    assert RenderPart("#!") == Link("/hashtag/!", "#!");
    assert DetectHashtags("#!")[0] == RenderPart("#!");
    assert |DetectHashtags("#!")| == 1;
    var s := "#a# b";
    assert WordRun(s, 2) == 0;
    assert WordRun(s, 1) == 1;
    assert TagEnd(s, 0) == 2;
    assert FindTag(s, 0) == Some(0);
    assert FindTag(s, 5) == None;
    assert FindTag(s, 4) == None;
    assert FindTag(s, 3) == None;
    assert FindTag(s, 2) == None;
    assert s[2..] == "# b" && s[..0] == "" && s[0..2] == "#a";
    assert SplitFrom(s, 2) == ["# b"];
    assert "# b"[1..] == " b";
    assert "/hashtag/" + " b" == "/hashtag/ b";
  }

  /** Renders only the matches as links: the evident intent of
      detectHashtags. */
  function DetectHashtagsByMatch(text: string): (nodes: seq<Node>)
    ensures |nodes| == |Split(text)|
  {
    var parts := Split(text);
    seq(|parts|, i requires 0 <= i < |parts| =>
      if i % 2 == 1 then Link("/hashtag/" + parts[i][1..], parts[i]) else Text(parts[i]))
  }

  /** With links only for matches, a node is a link iff it shows a hashtag,
      and every link target names a non-empty run of word characters. */
  lemma ByMatchLinksOnlyHashtags(text: string)
    ensures forall i :: 0 <= i < |Split(text)| ==>
      (DetectHashtagsByMatch(text)[i].Link? <==> IsHashtag(Label(DetectHashtagsByMatch(text)[i])))
    ensures forall i :: 0 <= i < |Split(text)| && DetectHashtagsByMatch(text)[i].Link? ==>
      DetectHashtagsByMatch(text)[i].href == "/hashtag/" + Split(text)[i][1..]
    ensures Labels(DetectHashtagsByMatch(text)) == Split(text)
  {
    var parts := Split(text);
    var nodes := DetectHashtagsByMatch(text);
    SplitFromWellSegmented(text, 0);
    assert text[0..] == text;
    forall i | 0 <= i < |parts|
      ensures nodes[i].Link? <==> IsHashtag(Label(nodes[i]))
    {
      assert IsHashtag(parts[i]) ==> TagStartsAt(parts[i], 0);
    }
    assert Labels(nodes) == parts;
  }

  /** Text without `#` has no match inside it. */
  lemma NoHashNoTagStart(p: string)
    requires forall k :: 0 <= k < |p| ==> p[k] != '#'
    ensures !HasTagStart(p)
  {
  }

  /** Text p0 with no match inside it, followed by a match t that the rest
      r does not continue, splits into p0, t and the split of r. */
  lemma SplitCons(p0: string, t: string, r: string)
    requires !HasTagStart(p0) && IsHashtag(t)
    requires |r| == 0 || !IsWordChar(r[0])
    ensures Split(p0 + t + r) == [p0, t] + Split(r)
  {
    SplitCharacterised(r, Split(r));
    ConsWellSegmented(p0, t, r, Split(r));
    SplitCharacterised(p0 + t + r, [p0, t] + Split(r));
  }

  /** "hello #world and #foo_2 bar" splits into the two hashtags and the
      three runs of text around them. */
  lemma SplitExample()
    ensures Split("hello " + "#world" + (" and " + "#foo_2" + " bar"))
      == ["hello ", "#world", " and ", "#foo_2", " bar"]
  {
    NoHashNoTagStart("hello ");
    assert IsHashtag("#world");
    SplitExampleTail();
    SplitCons("hello ", "#world", " and " + "#foo_2" + " bar");
  }

  lemma SplitExampleTail()
    ensures Split(" and " + "#foo_2" + " bar") == [" and ", "#foo_2", " bar"]
  {
    NoHashNoTagStart(" and ");
    NoHashSinglePart(" bar");
    assert IsHashtag("#foo_2");
    SplitCons(" and ", "#foo_2", " bar");
  }
}

=== FILE: post.dfy ===
/** The Post card's props and its like toggle (components/Post.tsx).

    The card keeps two pieces of local state, `isLiked` (initially false) and
    `likesCount` (initially the `likes` prop, which defaults to 0). Pressing
    the heart flips `isLiked` and moves the count one step in the same
    direction. `replies` and `reposts` are only displayed. */
module Post {
  import opened Wrappers

  /** The props as a caller passes them: the three counters may be absent. */
  datatype PostInput = PostInput(
    id: string, avatar: string, name: string, username: string,
    content: string, time: string,
    likes: Option<int>, reposts: Option<int>, replies: Option<int>)

  /** The props after the destructuring defaults `likes = 0`, `reposts = 0`,
      `replies = 0` have been applied. */
  datatype PostProps = PostProps(
    id: string, avatar: string, name: string, username: string,
    content: string, time: string,
    likes: int, reposts: int, replies: int)

  datatype LikeState = LikeState(isLiked: bool, likesCount: int)

  /** A mounted card: its props and its local like state. */
  datatype PostView = PostView(props: PostProps, like: LikeState)

  /** Applies the destructuring defaults. */
  function ResolveProps(input: PostInput): (p: PostProps)
    ensures p.likes == input.likes.GetOr(0)
    ensures p.reposts == input.reposts.GetOr(0)
    ensures p.replies == input.replies.GetOr(0)
    ensures p.id == input.id && p.content == input.content
    ensures p.name == input.name && p.username == input.username
    ensures p.avatar == input.avatar && p.time == input.time
  {
    PostProps(input.id, input.avatar, input.name, input.username, input.content, input.time,
              input.likes.GetOr(0), input.reposts.GetOr(0), input.replies.GetOr(0))
  }

  /** The count shown is the initial `likes` plus one while the post is liked. */
  predicate LikeInvariant(v: PostView) {
    v.like.likesCount == v.props.likes + (if v.like.isLiked then 1 else 0)
  }

  /** The card as first rendered: not liked, showing the `likes` prop. */
  function Mount(input: PostInput): (v: PostView)
    ensures !v.like.isLiked
    ensures v.like.likesCount == input.likes.GetOr(0)
    ensures LikeInvariant(v)
  {
    var props := ResolveProps(input);
    PostView(props, LikeState(false, props.likes))
  }

  /** handleLike: `setIsLiked(!isLiked)` and
      `setLikesCount(prev => isLiked ? prev - 1 : prev + 1)`. */
  function HandleLike(v: PostView): (w: PostView)
    ensures w.props == v.props
    ensures w.like.isLiked != v.like.isLiked
    ensures w.like.isLiked ==> w.like.likesCount == v.like.likesCount + 1
    ensures !w.like.isLiked ==> w.like.likesCount == v.like.likesCount - 1
    ensures LikeInvariant(v) ==> LikeInvariant(w)
  {
    var prev := v.like.likesCount;
    PostView(v.props, LikeState(!v.like.isLiked, if v.like.isLiked then prev - 1 else prev + 1))
  }

  /** n presses of the heart. */
  function Toggles(v: PostView, n: nat): PostView
    decreases n
  {
    if n == 0 then v else Toggles(HandleLike(v), n - 1)
  }

  /** After any number of presses from mounting, the post is liked exactly
      when the number is odd, the count is `likes` plus one while liked (so
      never below `likes`), and the other props are as mounted. */
  lemma {:induction false} TogglesKeepInvariant(v: PostView, n: nat)
    requires LikeInvariant(v)
    ensures LikeInvariant(Toggles(v, n))
    ensures Toggles(v, n).like.isLiked == (v.like.isLiked != (n % 2 == 1))
    ensures Toggles(v, n).like.likesCount >= v.props.likes
    ensures Toggles(v, n).props == v.props
    decreases n
  {
    if n > 0 {
      TogglesKeepInvariant(HandleLike(v), n - 1);
    }
  }

  /** Pressing twice restores the card exactly. */
  lemma DoubleToggleRestores(v: PostView)
    ensures HandleLike(HandleLike(v)) == v
  {
  }

  /** From a mounted card, an even number of presses restores the mounted
      state and an odd number leaves it liked with `likes + 1`. A card whose
      `likes` is not negative never shows a negative count. */
  lemma {:induction false} TogglesFromMount(input: PostInput, n: nat)
    ensures n % 2 == 0 ==> Toggles(Mount(input), n) == Mount(input)
    ensures n % 2 == 1 ==> Toggles(Mount(input), n).like == LikeState(true, input.likes.GetOr(0) + 1)
    ensures input.likes.GetOr(0) >= 0 ==> Toggles(Mount(input), n).like.likesCount >= 0
  {
    TogglesKeepInvariant(Mount(input), n);
  }

  /** The example run: a post with 5 likes goes to liked with 6, then back to
      not liked with 5. */
  lemma LikeExample(input: PostInput)
    requires input.likes == Some(5)
    ensures HandleLike(Mount(input)).like == LikeState(true, 6)
    ensures HandleLike(HandleLike(Mount(input))).like == LikeState(false, 5)
  {
  }
}

=== FILE: search.dfy ===
/** The search screen's facet filter and its filter state (app/search.tsx).

    The basic facets `showImages`, `showVideos`, `showText` start true; the
    advanced facets `sortByDate`, `sortByRelevance` start false. Both are
    plain JavaScript objects updated by `{ ...prev, [filter]: value }`, so
    they are modelled as maps from key to flag. A result is hidden when its
    content contains "image", "video" or "text" (case-sensitive substring)
    and the matching facet is off. */
module Search {
  import opened Wrappers
  import Post

  datatype User = User(name: string, avatar: string)

  datatype SearchResult = SearchResult(id: string, user: User, content: string, timestamp: string)

  type Facets = map<string, bool>

  const InitialFilters: Facets := map["showImages" := true, "showVideos" := true, "showText" := true]
  const InitialAdvancedFilters: Facets := map["sortByDate" := false, "sortByRelevance" := false]

  /** Reads `facets.key`; a missing key reads as `undefined`, which is falsy. */
  function Flag(facets: Facets, key: string): (b: bool)
    ensures b <==> key in facets && facets[key]
  {
    if key in facets then facets[key] else false
  }

  /** sub occurs in s starting at index i. */
  predicate OccursAt(s: string, sub: string, i: int) {
    0 <= i <= |s| - |sub| && s[i..i + |sub|] == sub
  }

  /** JavaScript `s.includes(sub)`: sub occurs in s at some position. */
  function Includes(s: string, sub: string): (b: bool)
    ensures b ==> |sub| <= |s|
    ensures |sub| <= |s| && s[..|sub|] == sub ==> b
    ensures |sub| == 0 ==> b
  {
    assert |sub| <= |s| && s[..|sub|] == sub ==> OccursAt(s, sub, 0);
    exists i :: 0 <= i <= |s| - |sub| && OccursAt(s, sub, i)
  }

  /** The `filteredResults` callback, test by test. */
  function Kept(filters: Facets, r: SearchResult): (b: bool)
    ensures b <==>
      !((!Flag(filters, "showImages") && Includes(r.content, "image")) ||
        (!Flag(filters, "showVideos") && Includes(r.content, "video")) ||
        (!Flag(filters, "showText") && Includes(r.content, "text")))
  {
    if !Flag(filters, "showImages") && Includes(r.content, "image") then false
    else if !Flag(filters, "showVideos") && Includes(r.content, "video") then false
    else if !Flag(filters, "showText") && Includes(r.content, "text") then false
    else true
  }

  /** `searchResults.filter(...)`. */
  function FilterResults(filters: Facets, rs: seq<SearchResult>): (out: seq<SearchResult>)
    ensures |out| <= |rs|
  {
    if |rs| == 0 then []
    else (if Kept(filters, rs[0]) then [rs[0]] else []) + FilterResults(filters, rs[1..])
  }

  /** idx lists, in increasing order, positions of ys holding xs. */
  ghost predicate Embeds<T>(idx: seq<nat>, xs: seq<T>, ys: seq<T>) {
    && |idx| == |xs|
    && (forall k :: 0 <= k < |idx| ==> idx[k] < |ys| && ys[idx[k]] == xs[k])
    && (forall j, k :: 0 <= j < k < |idx| ==> idx[j] < idx[k])
  }

  /** xs is ys with some elements removed and the rest in their order. */
  ghost predicate IsSubsequence<T>(xs: seq<T>, ys: seq<T>) {
    exists idx :: Embeds(idx, xs, ys)
  }

  /** Every position moved one to the right. */
  function Shift(idx: seq<nat>): (r: seq<nat>)
    ensures |r| == |idx| && forall k :: 0 <= k < |idx| ==> r[k] == idx[k] + 1
  {
    seq(|idx|, k requires 0 <= k < |idx| => idx[k] + 1)
  }

  /** An embedding survives putting one more element in front of the
      larger sequence, with every position shifted. */
  lemma EmbedsShift<T>(idx: seq<nat>, xs: seq<T>, y: T, ys: seq<T>)
    requires Embeds(idx, xs, ys)
    ensures Embeds(Shift(idx), xs, [y] + ys)
  {
    var r := Shift(idx);
    forall k | 0 <= k < |r|
      ensures r[k] < |[y] + ys| && ([y] + ys)[r[k]] == xs[k]
    {
      assert ([y] + ys)[idx[k] + 1] == ys[idx[k]];
    }
  }

  /** ... and, if that element is kept too, position 0 maps it. */
  lemma EmbedsCons<T>(idx: seq<nat>, xs: seq<T>, y: T, ys: seq<T>)
    requires Embeds(idx, xs, ys)
    ensures Embeds([0] + Shift(idx), [y] + xs, [y] + ys)
  {
    EmbedsShift(idx, xs, y, ys);
  }

  /** The positions of the kept results. */
  function KeptPositions(filters: Facets, rs: seq<SearchResult>): seq<nat>
  {
    if |rs| == 0 then []
    else (if Kept(filters, rs[0]) then [0] else []) + Shift(KeptPositions(filters, rs[1..]))
  }

  /** The kept positions embed the filtered list in the input. */
  lemma {:induction false} KeptPositionsEmbed(filters: Facets, rs: seq<SearchResult>)
    ensures Embeds(KeptPositions(filters, rs), FilterResults(filters, rs), rs)
  {
    if |rs| > 0 {
      KeptPositionsEmbed(filters, rs[1..]);
      var tail := KeptPositions(filters, rs[1..]);
      assert rs == [rs[0]] + rs[1..];
      if Kept(filters, rs[0]) {
        EmbedsCons(tail, FilterResults(filters, rs[1..]), rs[0], rs[1..]);
      } else {
        EmbedsShift(tail, FilterResults(filters, rs[1..]), rs[0], rs[1..]);
      }
    }
  }

  /** The filtered list is an order-preserving subsequence of the results. */
  lemma FilterIsSubsequence(filters: Facets, rs: seq<SearchResult>)
    ensures IsSubsequence(FilterResults(filters, rs), rs)
  {
    KeptPositionsEmbed(filters, rs);
  }

  /** A result is dropped iff its facet is off and its content carries the
      marker, for at least one of the three facets. */
  lemma {:induction false} FilterMembership(filters: Facets, rs: seq<SearchResult>, x: SearchResult)
    ensures x in FilterResults(filters, rs) <==>
      x in rs &&
      !((!Flag(filters, "showImages") && Includes(x.content, "image")) ||
        (!Flag(filters, "showVideos") && Includes(x.content, "video")) ||
        (!Flag(filters, "showText") && Includes(x.content, "text")))
  {
    if |rs| > 0 {
      FilterMembership(filters, rs[1..], x);
      assert rs == [rs[0]] + rs[1..];
    }
  }

  /** A result whose content carries none of the three markers is shown
      whatever the facets. */
  lemma MarkerFreeAlwaysKept(filters: Facets, r: SearchResult)
    requires !Includes(r.content, "image") && !Includes(r.content, "video") && !Includes(r.content, "text")
    ensures Kept(filters, r)
  {
  }

  /** With every basic facet on, in particular initially, nothing is hidden. */
  lemma {:induction false} AllFacetsOnKeepsAll(filters: Facets, rs: seq<SearchResult>)
    requires Flag(filters, "showImages") && Flag(filters, "showVideos") && Flag(filters, "showText")
    ensures FilterResults(filters, rs) == rs
  {
    if |rs| > 0 {
      AllFacetsOnKeepsAll(filters, rs[1..]);
      assert Kept(filters, rs[0]);
      assert rs == [rs[0]] + rs[1..];
    }
  }

  /** The screen as first shown lists every result. */
  lemma InitialScreenListsAll(rs: seq<SearchResult>)
    ensures Visible(InitialScreen, rs) == rs
  {
    AllFacetsOnKeepsAll(InitialFilters, rs);
  }

  /** Facets f hide no less than g: every facet on in f is on in g. */
  predicate AtMostAsPermissive(f: Facets, g: Facets) {
    && (Flag(f, "showImages") ==> Flag(g, "showImages"))
    && (Flag(f, "showVideos") ==> Flag(g, "showVideos"))
    && (Flag(f, "showText") ==> Flag(g, "showText"))
  }

  /** Filtering with the stricter facets after the looser ones is filtering
      with the stricter ones alone. */
  lemma {:induction false} FilterAbsorbs(f: Facets, g: Facets, rs: seq<SearchResult>)
    requires AtMostAsPermissive(f, g)
    ensures FilterResults(f, FilterResults(g, rs)) == FilterResults(f, rs)
  {
    if |rs| > 0 {
      FilterAbsorbs(f, g, rs[1..]);
      var head := if Kept(g, rs[0]) then [rs[0]] else [];
      FilterAppend(f, head, FilterResults(g, rs[1..]));
    }
  }

  lemma {:induction false} FilterAppend(f: Facets, xs: seq<SearchResult>, ys: seq<SearchResult>)
    ensures FilterResults(f, xs + ys) == FilterResults(f, xs) + FilterResults(f, ys)
  {
    if |xs| > 0 {
      var zs := xs + ys;
      assert zs[0] == xs[0] && zs[1..] == xs[1..] + ys;
      FilterAppend(f, xs[1..], ys);
      var head := if Kept(f, xs[0]) then [xs[0]] else [];
      assert head + (FilterResults(f, xs[1..]) + FilterResults(f, ys))
        == (head + FilterResults(f, xs[1..])) + FilterResults(f, ys);
    } else {
      assert xs + ys == ys;
    }
  }

  /** Applying the same facets twice is applying them once. */
  lemma FilterIdempotent(f: Facets, rs: seq<SearchResult>)
    ensures FilterResults(f, FilterResults(f, rs)) == FilterResults(f, rs)
  {
    FilterAbsorbs(f, f, rs);
  }

  /** Turning facets on never hides a result that was shown: the stricter
      list is a subsequence of the looser one. */
  lemma FilterMonotone(f: Facets, g: Facets, rs: seq<SearchResult>)
    requires AtMostAsPermissive(f, g)
    ensures IsSubsequence(FilterResults(f, rs), FilterResults(g, rs))
    ensures forall x :: x in FilterResults(f, rs) ==> x in FilterResults(g, rs)
  {
    FilterAbsorbs(f, g, rs);
    FilterIsSubsequence(f, FilterResults(g, rs));
  }

  /** The example: with images hidden, "an image here" goes and "plain text"
      stays. */
  lemma FilterExample(filters: Facets, a: SearchResult, b: SearchResult)
    requires filters == map["showImages" := false, "showVideos" := true, "showText" := true]
    requires a.content == "an image here" && b.content == "plain text"
    ensures FilterResults(filters, [a, b]) == [b]
  {
    assert !Kept(filters, a) by {
      assert OccursAt(a.content, "image", 3);
    }
    assert Kept(filters, b) by {
      forall i | 0 <= i <= |b.content| - 5
        ensures !OccursAt(b.content, "image", i)
      {
        assert b.content[i..i + 5][0] == b.content[i] && b.content[i..i + 5][1] == b.content[i + 1];
      }
    }
    assert [a, b][1..] == [b];
    assert [b][1..] == [];
  }

  /** The search screen's state. */
  datatype Screen = Screen(
    selectedHashtag: Option<string>,
    isPremium: bool,
    filters: Facets,
    advancedFilters: Facets)

  const InitialScreen := Screen(None, false, InitialFilters, InitialAdvancedFilters)

  /** The `useState` initial values: nothing selected, not premium, every
      basic facet on and every advanced facet off. */
  lemma InitialState()
    ensures InitialScreen.selectedHashtag == None && !InitialScreen.isPremium
    ensures InitialScreen.filters.Keys == {"showImages", "showVideos", "showText"}
    ensures Flag(InitialScreen.filters, "showImages") && Flag(InitialScreen.filters, "showVideos")
      && Flag(InitialScreen.filters, "showText")
    ensures InitialScreen.advancedFilters.Keys == {"sortByDate", "sortByRelevance"}
    ensures !Flag(InitialScreen.advancedFilters, "sortByDate")
      && !Flag(InitialScreen.advancedFilters, "sortByRelevance")
  {
  }

  /** The results the screen lists. */
  function Visible(screen: Screen, rs: seq<SearchResult>): seq<SearchResult> {
    FilterResults(screen.filters, rs)
  }

  /** handleFilterChange: sets one key of the basic facets. */
  function HandleFilterChange(screen: Screen, filter: string, value: bool): (next: Screen)
    ensures filter in next.filters && next.filters[filter] == value
    ensures next.filters.Keys == screen.filters.Keys + {filter}
    ensures forall k :: k in screen.filters && k != filter ==> next.filters[k] == screen.filters[k]
    ensures next.advancedFilters == screen.advancedFilters
    ensures next.selectedHashtag == screen.selectedHashtag && next.isPremium == screen.isPremium
  {
    screen.(filters := screen.filters[filter := value])
  }

  /** handleAdvancedFilterChange: sets one key of the advanced facets. */
  function HandleAdvancedFilterChange(screen: Screen, filter: string, value: bool): (next: Screen)
    ensures filter in next.advancedFilters && next.advancedFilters[filter] == value
    ensures next.advancedFilters.Keys == screen.advancedFilters.Keys + {filter}
    ensures forall k :: k in screen.advancedFilters && k != filter ==> next.advancedFilters[k] == screen.advancedFilters[k]
    ensures next.filters == screen.filters
    ensures next.selectedHashtag == screen.selectedHashtag && next.isPremium == screen.isPremium
  {
    screen.(advancedFilters := screen.advancedFilters[filter := value])
  }

  /** handleHashtagPress: remembers the pressed trend topic. */
  function HandleHashtagPress(screen: Screen, hashtag: string): (next: Screen)
    ensures next.selectedHashtag == Some(hashtag)
    ensures next.filters == screen.filters && next.advancedFilters == screen.advancedFilters
    ensures next.isPremium == screen.isPremium
  {
    screen.(selectedHashtag := Some(hashtag))
  }

  /** The advanced facets never change which results are listed, nor does a
      basic-facet update under a key the filter does not read. */
  lemma ListingIgnoresOtherKeys(screen: Screen, filter: string, value: bool, rs: seq<SearchResult>)
    ensures Visible(HandleAdvancedFilterChange(screen, filter, value), rs) == Visible(screen, rs)
    ensures filter !in {"showImages", "showVideos", "showText"} ==>
      Visible(HandleFilterChange(screen, filter, value), rs) == Visible(screen, rs)
  {
    if filter !in {"showImages", "showVideos", "showText"} {
      FilterSameFlags(screen.filters, screen.filters[filter := value], rs);
    }
  }

  /** Facets that read the same on the three keys filter the same. */
  lemma {:induction false} FilterSameFlags(f: Facets, g: Facets, rs: seq<SearchResult>)
    requires Flag(f, "showImages") == Flag(g, "showImages")
    requires Flag(f, "showVideos") == Flag(g, "showVideos")
    requires Flag(f, "showText") == Flag(g, "showText")
    ensures FilterResults(f, rs) == FilterResults(g, rs)
  {
    if |rs| > 0 {
      FilterSameFlags(f, g, rs[1..]);
    }
  }

  /** Each listed result is rendered as a Post with zero counters, its user
      name as both name and username, and its id, avatar, content and
      timestamp. */
  function ResultAsPost(r: SearchResult): (input: Post.PostInput)
    ensures input.likes == Some(0) && input.reposts == Some(0) && input.replies == Some(0)
    ensures input.name == r.user.name && input.username == r.user.name
    ensures input.id == r.id && input.content == r.content
    ensures input.avatar == r.user.avatar && input.time == r.timestamp
  {
    Post.PostInput(r.id, r.user.avatar, r.user.name, r.user.name, r.content, r.timestamp,
                   Some(0), Some(0), Some(0))
  }

  /** A listed result mounts as an unliked post showing zero likes, and one
      press of its heart shows one. */
  lemma ResultPostStartsAtZero(r: SearchResult)
    ensures Post.Mount(ResultAsPost(r)).like == Post.LikeState(false, 0)
    ensures Post.HandleLike(Post.Mount(ResultAsPost(r))).like == Post.LikeState(true, 1)
    ensures Post.Mount(ResultAsPost(r)).props.reposts == 0 && Post.Mount(ResultAsPost(r)).props.replies == 0
  {
  }
}

=== FILE: trends.dfy ===
/** The trend refresh of hooks/useFetchTrends.ts.

    One refresh fetches resource "hashtags", maps every raw record
    `{id, hashtag, score}` to `{id, topic: hashtag, countTotal:
    score.toString()}`, replaces the trend list with the result, then stores
    that list under cache key "trends". Everything sits in one try block: a
    failed fetch or a record without a score (`undefined.toString()` throws)
    ends the refresh before `setTrends`, and a failed store ends it after.
    Each failure is only logged. The outcomes of the two collaborators are
    parameters of the transition. */
module Trends {
  import opened Wrappers
  import Decimal

  /** A record as fetched; `score` is absent when the record lacks it. */
  datatype RawTrend = RawTrend(id: string, hashtag: string, score: Option<nat>)

  datatype Trend = Trend(id: string, topic: string, countTotal: string)

  const Resource: string := "hashtags"
  const CacheKey: string := "trends"

  /** What a refresh asks of the outside world, in order. */
  datatype Effect = Fetch(resource: string) | Store(key: string, value: seq<Trend>) | LogError

  /** The hook's trend list and the local key-value cache. */
  datatype TrendsState = TrendsState(trends: seq<Trend>, cache: map<string, seq<Trend>>)

  datatype Refreshed = Refreshed(state: TrendsState, effects: seq<Effect>)

  /** The hook before its first refresh has finished. */
  function Initial(cache: map<string, seq<Trend>>): (st: TrendsState)
    ensures st.trends == [] && st.cache == cache
  {
    TrendsState([], cache)
  }

  /** `data.map(trend => ({ id, topic: hashtag, countTotal: score.toString() }))`:
      a list of the same length and order, or nothing when some record has no
      score. */
  function Normalize(raw: seq<RawTrend>): (r: Option<seq<Trend>>)
    ensures r.Some? <==> forall i :: 0 <= i < |raw| ==> raw[i].score.Some?
    ensures r.Some? ==> |r.value| == |raw|
    ensures r.Some? ==> forall i :: 0 <= i < |raw| ==>
      r.value[i] == Trend(raw[i].id, raw[i].hashtag, Decimal.NatToString(raw[i].score.value))
  {
    if |raw| == 0 then Some([])
    else
      match raw[0].score
      case None => None
      case Some(n) =>
        match Normalize(raw[1..])
        case None => None
        case Some(rest) => Some([Trend(raw[0].id, raw[0].hashtag, Decimal.NatToString(n))] + rest)
  }

  /** One run of fetchTrends, given whether the fetch succeeded (and with
      what) and whether the store succeeds. */
  function Refresh(st: TrendsState, fetched: Option<seq<RawTrend>>, storeOk: bool): (r: Refreshed)
    ensures |r.effects| >= 2 && r.effects[0] == Fetch("hashtags")
    ensures forall i :: 0 <= i < |r.effects| && r.effects[i].Store? ==>
      r.effects[i].key == "trends" && r.effects[i].value == r.state.trends
    ensures forall k :: k in st.cache && k != "trends" ==> k in r.state.cache && r.state.cache[k] == st.cache[k]
    ensures r.state.cache == st.cache || r.state.cache == st.cache["trends" := r.state.trends]
  {
    match fetched
    case None => Refreshed(st, [Fetch(Resource), LogError])
    case Some(data) =>
      match Normalize(data)
      case None => Refreshed(st, [Fetch(Resource), LogError])
      case Some(ts) =>
        if storeOk then
          Refreshed(TrendsState(ts, st.cache[CacheKey := ts]), [Fetch(Resource), Store(CacheKey, ts)])
        else
          Refreshed(TrendsState(ts, st.cache), [Fetch(Resource), Store(CacheKey, ts), LogError])
  }

  predicate Stores(effects: seq<Effect>) {
    exists i :: 0 <= i < |effects| && effects[i].Store?
  }

  /** A failed fetch changes nothing and stores nothing. */
  lemma RefreshFetchFailure(st: TrendsState, storeOk: bool)
    ensures Refresh(st, None, storeOk).state == st
    ensures !Stores(Refresh(st, None, storeOk).effects)
    ensures Refresh(st, None, storeOk).effects[|Refresh(st, None, storeOk).effects| - 1] == LogError
  {
  }

  /** A record without a score aborts the whole normalisation: no partial
      update of the list and no cache write. */
  lemma RefreshMissingScore(st: TrendsState, data: seq<RawTrend>, storeOk: bool, i: nat)
    requires i < |data| && data[i].score.None?
    ensures Refresh(st, Some(data), storeOk).state == st
    ensures !Stores(Refresh(st, Some(data), storeOk).effects)
  {
  }

  /** When every record has a score, the list becomes exactly the normalised
      records, in order, and that same list is what is stored; the cache
      holds it when the store succeeds, and on failure keeps its previous
      value (RefreshStoreFailure). */
  lemma RefreshSuccess(st: TrendsState, data: seq<RawTrend>, storeOk: bool)
    requires forall i :: 0 <= i < |data| ==> data[i].score.Some?
    ensures var r := Refresh(st, Some(data), storeOk);
      && |r.state.trends| == |data|
      && (forall i :: 0 <= i < |data| ==>
            r.state.trends[i].id == data[i].id && r.state.trends[i].topic == data[i].hashtag
            && Decimal.IsCanonical(r.state.trends[i].countTotal)
            && Decimal.ParseDigits(r.state.trends[i].countTotal) == data[i].score.value)
      && r.effects[1] == Store("trends", r.state.trends)
      && (storeOk ==> "trends" in r.state.cache && r.state.cache["trends"] == r.state.trends)
      && (storeOk ==> r.effects == [Fetch("hashtags"), Store("trends", r.state.trends)])
  {
    var ts := Normalize(data).value;
    forall i | 0 <= i < |data|
      ensures Decimal.ParseDigits(ts[i].countTotal) == data[i].score.value
    {
      Decimal.ParseNatToString(data[i].score.value);
    }
  }

  /** A failed store is only logged: the list has already been replaced,
      and the cache keeps its previous value. */
  lemma RefreshStoreFailure(st: TrendsState, data: seq<RawTrend>, ts: seq<Trend>, storeOk: bool)
    requires Normalize(data) == Some(ts)
    requires !storeOk
    ensures Refresh(st, Some(data), storeOk).state == TrendsState(ts, st.cache)
    ensures Refresh(st, Some(data), storeOk).effects == [Fetch("hashtags"), Store("trends", ts), LogError]
  {
  }

  /** A refresh either leaves the state alone or replaces the list with the
      normalised fetch; never anything in between. */
  lemma RefreshCompleteOrNoop(st: TrendsState, fetched: Option<seq<RawTrend>>, storeOk: bool)
    ensures var r := Refresh(st, fetched, storeOk);
      || r.state == st
      || (fetched.Some? && Normalize(fetched.value) == Some(r.state.trends))
  {
  }

  /** Every count shown is a canonical decimal numeral, in the list and in
      the cached copy. */
  predicate WellFormed(st: TrendsState) {
    && (forall i :: 0 <= i < |st.trends| ==> Decimal.IsCanonical(st.trends[i].countTotal))
    && (CacheKey in st.cache ==>
          forall i :: 0 <= i < |st.cache[CacheKey]| ==> Decimal.IsCanonical(st.cache[CacheKey][i].countTotal))
  }

  /** Refreshing keeps the state well formed, whatever the outcomes. */
  lemma RefreshPreservesWellFormed(st: TrendsState, fetched: Option<seq<RawTrend>>, storeOk: bool)
    requires WellFormed(st)
    ensures WellFormed(Refresh(st, fetched, storeOk).state)
  {
  }

  /** Repeating a refresh with the same outcomes reaches the same state. */
  lemma RefreshIdempotent(st: TrendsState, fetched: Option<seq<RawTrend>>, storeOk: bool)
    ensures var once := Refresh(st, fetched, storeOk).state;
      Refresh(once, fetched, storeOk).state == once
  {
  }

  /** The example: `{id: "1", hashtag: "#Go", score: 42}` becomes
      `{id: "1", topic: "#Go", countTotal: "42"}`. */
  lemma NormalizeExample()
    ensures Normalize([RawTrend("1", "#Go", Some(42))]) == Some([Trend("1", "#Go", "42")])
  {
    Decimal.NatToStringExample();
    var raw := [RawTrend("1", "#Go", Some(42))];
    var r := Normalize(raw);
    assert raw[0].score.Some?;
    assert r.Some? && |r.value| == 1;
    assert r.value[0] == Trend("1", "#Go", "42");
    assert r.value == [r.value[0]];
  }
}

=== FILE: wrappers.dfy ===
/** The optional value used for fields a JavaScript record may lack and for
    collaborators that may fail. */
module Wrappers {

  datatype Option<+T> = None | Some(value: T) {

    /** The present value, or `default` when absent: what a JavaScript
        destructuring default such as `likes = 0` reads. */
    function GetOr(default: T): T {
      match this
      case Some(v) => v
      case None() => default
    }
  }
}
